=== FILE: README.md ===
# Image cache server core, modelled in Dafny

This project models the decision logic of `server.js`, an Express server that
serves images stored as PostgreSQL large objects. Each image is cached on
disk, optionally resized, and served. The bytes served for each picture are
charged to the picture's token in batched balance updates.

Six modules, one file each:

- `Wrappers` (`wrappers.dfy`): `Option` stands for `null`/`undefined`. `Result` stands for an error passed to `next(err)`.
- `Strings` (`strings.dfy`): `split` on one separator character, its inverse `join`, and decimal numerals. A digit string is read as the exact natural number it denotes (leading zeros allowed, the empty string as 0).
- `Geometry` (`geometry.dfy`): the geometry token of `resizeFile`, such as `300x200!`, parsed into a crop/fit flag and optional width and height. `Format` is its inverse on canonical tokens.
- `Billing` (`billing.dfy`): the `chargeImage` aggregator as a state machine. The pending list is a `seq<Charge>` and `lastChargedAt` is an integer clock in milliseconds. The `setTimeout` callback is an explicit `Check(state, now)` step. A flush produces a per-token `map<string, nat>` of totals. `Statements` turns it into one update per distinct token.
- `CachePaths` (`cache.dfy`): `req.cache`, `req.originalCache`, `req.resizedCache` and `req.tempCache`. Paths are sequences of segments.
- `Pipeline` (`pipeline.dfy`): one request through `cacheFile`, `streamFile`, `resizeFile` and `serveFile`. The cache directory is a map from paths to bytes. The database is an abstract blob store: lookup rows and large objects. The image library is a function parameter returning "some bytes" or an error. The random temp name is a `nonce` parameter.

Behaviours of the code worth knowing, which the model reproduces:

- A missing blob row makes `t.one` reject. The request then ends in the generic 500 handler; there is no 404 for it (`Pipeline.MissingRowFails`).
- On the geometry route, a miss of the resized file always runs `streamFile` before `resizeFile`. The blob is re-read from the database even when the original is already cached (`Pipeline.GeometryMissRefetchesOriginal`).
- A geometry with both sides unconstrained is not rejected. `Geometry.Parse` yields no width and no height, and what the image library does with that is its own affair.

The flush check compares strictly: a flush needs more than 1000 ms since the
last one. Suppose a charge is recorded in the same millisecond as a flush, and
its own timer fires exactly 1000 ms later. That timer's check does nothing, and
no other timer is due, so the charge waits for the next request
(`Billing.TimerAtExactIntervalKeepsCharge`). With any larger gap, the timer
drains the charge (`Billing.ChargeDrainedByItsTimer`).

## Model

| member | source | states |
|---|---|---|
| Strings.Split | server.js:125 | `split('x')` yields one more part than there are separators; no part contains the separator, and every character of a part comes from the input |
| Strings.JoinSplit | server.js:125 | joining the parts of a split with the separator restores the original token |
| Strings.SplitJoin | server.js:125 | splitting a join of separator-free parts gives exactly those parts back |
| Strings.DecimalValue | server.js:126-127 | a digit string reads as zero exactly when all its characters are `0`, the empty string included |
| Geometry.NumberOrNull | server.js:126-127 | `Number(s) \|\| null` is null exactly when the part is empty or all zeros; otherwise it is the part's positive decimal value |
| Geometry.Body | server.js:120-121 | the token loses exactly one character, its last, when that is `!`, and is kept whole otherwise; what remains is digits and `x` |
| Geometry.Parse | server.js:117-133 | crop mode holds exactly when the token ends in `!`, and every constrained side is positive |
| Geometry.BangSelectsCrop | server.js:120-123 | without `!` the token is in fit mode; appending `!` switches to crop and leaves both dimensions unchanged, because the `!` is stripped before the split |
| Geometry.FirstTwoParts | server.js:125-127 | the width comes from the first `x`-separated part and the height from the second, whatever follows them |
| Geometry.NoCrossMeansNoHeight | server.js:125-127 | a token without `x` sets only the width, in fit mode, and leaves the height unconstrained |
| Geometry.ParseFormat | server.js:117-127 | every geometry with positive sides is read back unchanged from its canonical token |
| Geometry.FormatIsCanonical | server.js:117-127 | re-reading the canonical form of any parsed token gives the same geometry |
| Geometry.ExampleWidthOnly | server.js:117-133 | `300x` asks for width 300 and any height, in fit mode |
| Geometry.ExampleHeightOnly | server.js:117-133 | `x300` asks for any width and height 300, in fit mode |
| Geometry.ExampleFitBox | server.js:117-133 | `300x200` asks for a fit inside 300 by 200 |
| Geometry.ExampleCrop | server.js:117-133 | `300x200!` asks for a 300 by 200 crop |
| Billing.Start | server.js:21-22 | at process start nothing is pending and `lastChargedAt` is the start time |
| Billing.ChargeImage | server.js:24-25 | recording a charge appends exactly one (token, length) entry to the end and keeps the earlier entries and `lastChargedAt` |
| Billing.ChargeImageAggregate | server.js:24-35 | a recorded charge adds its length to its own token's eventual total and to no other |
| Billing.Check | server.js:27-35 | with a gap of at most 1000 ms the state and the absence of a batch are unchanged; with a larger gap `lastChargedAt` becomes `now`, the list is emptied, the batch counts the drained requests and has one key per distinct drained token valued at that token's summed lengths |
| Billing.Add | server.js:35 | one reduce step adds the charge's token as a key and raises that token's running total, read as 0 when absent, by the charge's length; no other token changes |
| Billing.Aggregate | server.js:35 | the reduce's keys are exactly the distinct tokens of the drained list, one per token, each valued at the sum of that token's lengths |
| Billing.AggregateConserves | server.js:35 | the total over the aggregate equals the total length of the drained list |
| Billing.FlushConserves | server.js:29-35 | the batch of a flush totals exactly the bytes of the charges it drained |
| Billing.AggregateExample | server.js:35 | (A,100), (A,50), (B,30) aggregate to A→150 and B→30 |
| Billing.Statements | server.js:39-40 | one update per aggregate entry, no token twice, exactly the aggregate's tokens, each amount that token's total; the order is left open |
| Billing.StatementsConserve | server.js:35-40 | in whatever order, statements with one update per aggregate key, each for that key's total, deduct exactly the aggregate's total |
| Billing.Step | server.js:24-46 | a served picture appends its charge and keeps `lastChargedAt`; a timer leaves the state alone exactly when at most 1000 ms have passed since the last flush, and otherwise empties the list and stamps its own time; `lastChargedAt` never moves backwards |
| Billing.Run | server.js:24-46 | after any events `lastChargedAt` has not moved backwards; if it is unchanged, the list is the old one followed by every recorded charge and no timer fired more than 1000 ms after the old stamp; otherwise the stamp lies more than 1000 ms past the old one, it is the time of the first timer firing then, the pending list is exactly the charges recorded after that timer, and no later timer fired more than 1000 ms after the new stamp |
| Billing.RunFlushWasDue | server.js:27-30 | the timer that set the final stamp found more than 1000 ms since the stamp the earlier events left, so it really flushed |
| Billing.ChargeDrainedByItsTimer | server.js:24-35 | if a charge's timer fires more than 1000 ms after it was recorded, and no earlier flush was stamped later than the recording, then after that check only charges recorded later can be pending |
| Billing.TimerAtExactIntervalKeepsCharge | server.js:27-29 | a charge recorded at a flush's own millisecond is still pending after its timer fires exactly 1000 ms later |
| CachePaths.Cache | server.js:61 | the request's path is the cache directory followed by model, attribute, id, the geometry when the route has one, and the filename |
| CachePaths.OriginalCache | server.js:62 | the original path is the cache directory followed by four segments, and equals the path of the same request without a geometry |
| CachePaths.TempCache | server.js:66 | the temporary path is one segment below the cache directory, named by the nonce followed by `.jpg` |
| CachePaths.ResizedCache | server.js:61-65 | a resized path exists exactly when the route carries a geometry, and it is then the request's own path |
| CachePaths.OriginalRouteIsOriginal | server.js:61-63 | on the four-segment route the request's path is the original path |
| CachePaths.CacheInjective | server.js:61 | distinct requests have distinct cache paths |
| CachePaths.VariantsShareOriginal | server.js:61-64 | all geometries of one resource share its original, which is the plain request's path, while each geometry gets a path of its own |
| CachePaths.TempIsNotCanonical | server.js:66 | the temporary file is never a canonical cache path |
| Pipeline.OidSQL | server.js:51-58 | `oidSQL` has a query exactly for (picture, image) and (user, avatar), and for no other pair |
| Pipeline.Blob | server.js:89-91 | the blob is found exactly when the resource family has a query, the row exists and its large object exists, and it is then that object's bytes; there is no query exactly when the family is unknown |
| Pipeline.Install | server.js:92-103 | after the temp write and rename, the target holds exactly the written bytes, the temp file is gone and every other file is unchanged |
| Pipeline.Fetch | server.js:86-113 | `streamFile` succeeds exactly when the blob is found; the original path then holds the blob's bytes, and otherwise the lookup's error is reported |
| Pipeline.Resize | server.js:116-145 | `resizeFile` succeeds exactly when the original is cached and the library renders it at the parsed geometry; the request's path then holds that rendering, and otherwise the request fails with a resize error |
| Pipeline.Serve | server.js:147-158 | a readable file is sent as `image/jpeg` with `Content-Length` equal to its byte count; that count is charged to the request's id exactly when the model is `picture` |
| Pipeline.Handle | server.js:60-81 | a cached file is served directly with no fetch or resize and no file change; any miss fetches; what is served is the file at the request's path with its own length; the file's byte count is charged, and only for pictures; only the request's original and own paths gain or change a file |
| Pipeline.SecondRequestHits | server.js:68-75 | after a request has been served, the same request again is a cache hit with the same response and no fetch or resize |
| Pipeline.OriginalRouteServesBlob | server.js:86-103 | a miss on the plain route serves the blob byte for byte and caches it at the original path |
| Pipeline.GeometryRouteServesRendering | server.js:116-145 | a miss on the geometry route caches the blob as the original and serves the library's rendering at the parsed geometry |
| Pipeline.MissingRowFails | server.js:86-113 | a lookup with no row ends in the error handler, creates no file and charges nothing |
| Pipeline.GeometryMissRefetchesOriginal | server.js:77-79 | a geometry-route miss consults the blob store even when the original is cached, and fails if the blob is gone |

## Left out

- Express routing, middleware chaining, `morgan` logging and the 404/500 handlers (server.js:161-187) are framework plumbing. `Response.ServerError` marks the requests that reach the 500 handler.
- The cache-hit test is "`fs.stat` succeeds" (server.js:68-73), which also holds for a directory; the model's files are a map with no directories, so its hit path always reads a file and `Pipeline.Handle` never reports `ReadFailed`. In the code, a geometry-route request makes `mkdirp` create `cacheDir/model/attribute/id/geometry` (server.js:77) before any lookup, even one that then fails. A later plain-route request `/model/attribute/id/geometry` then stats that directory as a hit, and `serveFile`, called without a `next` callback on that path (server.js:73), fails to read it and calls the undefined `next` (server.js:150): an uncaught exception that stops the process. This crash is not modelled.
- Postgres connections, transactions and `connection.done()` are not modelled. Each blob lookup either finds exactly one row or none; the rows are a map.
- Pipeline.Install: writes the whole temporary file before the rename. In the code the rename runs on the blob stream's `'end'` event (server.js:97-98), not the file stream's `'finish'`, so the original can be renamed into place while writes to it are still pending. A concurrent request's `fs.stat` can then take a partial file as a hit, and this request's own `serveFile` can read a partial file. That window is not modelled.
- The large-object stream has no `'error'` listener (server.js:91-105), so a stream error is thrown as an uncaught exception; a failed rename calls `next(err)` and leaves the transaction's promise unsettled. Neither is modelled: streaming is one complete copy.
- `sharp` is a function parameter. Its `resize`, `max`, `sharpen` and JPEG quality-90 encoding are not modelled, and neither is what it does with two unconstrained sides.
- `mkdirp`, directory creation and filesystem errors other than a missing file are not modelled. Files are a map from paths to bytes.
- `crypto.randomBytes` is replaced by the `nonce` parameter of `Pipeline.Handle`.
- `setTimeout` and the real clock are replaced by `Billing.Event` steps carrying the clock reading. The log line and the best-effort `db.none` write, whose failure is only logged, are not modelled.
- Concurrent requests are not modelled: there are no interleavings of two requests' stages. In the code, concurrent requests for the same uncached file each fetch it; there is no per-key deduplication.
- Geometry.NumberOrNull: reads a digit string as the exact natural number it denotes. JavaScript's `Number` rounds numerals beyond 2^53 to the nearest double (`Number("9007199254740993")` is 9007199254740992) and reads numerals above about 1.8e308 as `Infinity`, which `|| null` keeps; neither is modelled.
- Geometry.Parse: accepts only tokens of digits and `x` with at most one trailing `!` (`Geometry.WellFormedToken`). The route accepts any segment, and JavaScript `Number` quirks outside digit strings (`1e3`, ` 12`, `0x10`, `1.5`) are not modelled.
- Pipeline.Handle: requires a well-formed geometry token on the geometry route, for the same reason as `Geometry.Parse`.
- CachePaths.ResizedCache: a request path with a trailing slash is not modelled, because segment paths cannot express one. Express's non-strict routing matches `/picture/image/1/a.jpg/` on the plain route, and `path.join` keeps the slash (server.js:61), so `req.cache` differs from `req.originalCache` and `resizedCache` is set (server.js:63-64). `fs.stat` then fails with ENOTDIR, `streamFile` re-reads the blob and overwrites the original, and `serveFile`'s `readFile` fails (server.js:148-150). Every such request costs a blob read and ends in a 500.
- `path.join` normalisation of `.` and `..`, and percent-decoding differences between `req.path` and `req.params`, are not modelled. Segments are assumed free of `/`, `.` and `..`.
- Pipeline.Serve: charges the file's full byte count, as the code does before sending (server.js:153). `app.get` also answers HEAD requests, and `res.send` answers a GET whose `If-None-Match` matches the generated ETag with a bodiless 304; in both cases the full length is charged although no bytes are sent. HTTP methods and conditional requests are not modelled.
- Billing.Statements: the order of the updates is left open, because `Object.entries` puts integer-like keys first. The SQL text and `pgp.helpers.concat` are not modelled.
- Billing.Aggregate: the accumulator is a plain map. A token such as `constructor` or `__proto__` would read an inherited property of the JavaScript object `{ }`, and that is not modelled.

=== FILE: billing.dfy ===
/**
 * The billing aggregator of `chargeImage`: every served picture appends a
 * (token, length) charge to a pending list, and a deferred check, run one
 * interval later, drains the whole list when strictly more than the interval
 * has passed since the last drain, sums the lengths per token and issues one
 * balance update per distinct token. The timer is modelled as an explicit
 * `Check(state, now)` step that receives the clock reading.
 */
module Billing {
  import opened Wrappers

  /** Milliseconds: both the timer delay and the minimum gap between two flushes. */
  const FlushInterval: int := 1000

  /** One served response: the picture's token and the bytes sent. */
  datatype Charge = Charge(token: string, length: nat)

  /** The process-wide state: the pending `charges` and `lastChargedAt` (ms). */
  datatype Aggregator = Aggregator(pending: seq<Charge>, lastChargedAt: int)

  /** The state at process start: nothing is pending and the last flush is stamped `now`. */
  function Start(now: int): (r: Aggregator)
    ensures r.pending == [] && r.lastChargedAt == now
  {
    Aggregator([], now)
  }

  /** Records one charge: it is appended and nothing else changes. */
  function ChargeImage(a: Aggregator, token: string, length: nat): (r: Aggregator)
    ensures |r.pending| == |a.pending| + 1
    ensures r.pending[..|a.pending|] == a.pending
    ensures r.pending[|a.pending|] == Charge(token, length)
    ensures r.lastChargedAt == a.lastChargedAt
  {
    a.(pending := a.pending + [Charge(token, length)])
  }

  // ---------------------------------------------------------------------------
  // Reference definitions over the drained list

  /** The distinct tokens of a list of charges. */
  function Tokens(cs: seq<Charge>): set<string> {
    if |cs| == 0 then {} else {cs[0].token} + Tokens(cs[1..])
  }

  /** The sum of the lengths charged to `token`. */
  function TokenTotal(cs: seq<Charge>, token: string): nat {
    if |cs| == 0 then 0
    else (if cs[0].token == token then cs[0].length else 0) + TokenTotal(cs[1..], token)
  }

  /** The sum of all lengths. */
  function Sum(cs: seq<Charge>): nat {
    if |cs| == 0 then 0 else cs[0].length + Sum(cs[1..])
  }

  /** The sum of the values of a map, in no particular key order. */
  ghost function MapTotal(m: map<string, nat>): nat
    decreases |m|
  {
    if |m| == 0 then 0
    else
      var k :| k in m;
      m[k] + MapTotal(m - {k})
  }

  lemma RemoveSize(m: map<string, nat>, k: string)
    requires k in m
    ensures |m - {k}| == |m| - 1
  {
    assert (m - {k}).Keys == m.Keys - {k};
  }

  /** The key `MapTotal` takes out first. */
  lemma MapTotalPick(m: map<string, nat>) returns (j: string)
    requires |m| != 0
    ensures j in m && MapTotal(m) == m[j] + MapTotal(m - {j})
  {
    j :| j in m && MapTotal(m) == m[j] + MapTotal(m - {j});
  }

  /** `MapTotal` does not depend on which key is taken out first. */
  lemma {:induction false} MapTotalRemove(m: map<string, nat>, k: string)
    requires k in m
    ensures MapTotal(m) == m[k] + MapTotal(m - {k})
    decreases |m|
  {
    RemoveSize(m, k);
    var j := MapTotalPick(m);
    if j != k {
      RemoveSize(m, j);
      var mj, mk := m - {j}, m - {k};
      MapTotalRemove(mj, k);
      MapTotalRemove(mk, j);
      assert mj - {k} == mk - {j};
    }
  }

  // ---------------------------------------------------------------------------
  // The `reduce` of the flush

  /** `acc[k] || 0`: the running total of a token, zero when it has none yet. */
  function Lookup(acc: map<string, nat>, token: string): nat {
    if token in acc then acc[token] else 0
  }

  /** One step of the reduce: `acc[k] = (acc[k] || 0) + v`. */
  function Add(acc: map<string, nat>, c: Charge): (r: map<string, nat>)
    ensures r.Keys == acc.Keys + {c.token}
    ensures forall k :: Lookup(r, k) == Lookup(acc, k) + (if k == c.token then c.length else 0)
  {
    acc[c.token := Lookup(acc, c.token) + c.length]
  }

  /** The reduce from `acc`, charge by charge from the front of the list. */
  function AggregateInto(acc: map<string, nat>, cs: seq<Charge>): map<string, nat>
    decreases |cs|
  {
    if |cs| == 0 then acc else AggregateInto(Add(acc, cs[0]), cs[1..])
  }

  /**
   * The per-token totals of a drained list (the reduce from `{}`): exactly
   * one key per distinct token, valued at the sum of that token's lengths.
   */
  function Aggregate(cs: seq<Charge>): (r: map<string, nat>)
    ensures r.Keys == Tokens(cs)
    ensures |r| == |Tokens(cs)|
    ensures forall k :: k in r ==> r[k] == TokenTotal(cs, k)
  {
    AggregateIntoTotals(map[], cs);
    var r := AggregateInto(map[], cs);
    assert forall k :: k in r ==> Lookup(r, k) == r[k];
    r
  }

  /** The reduce adds each charge's length to its own token and to no other. */
  lemma {:induction false} AggregateIntoTotals(acc: map<string, nat>, cs: seq<Charge>)
    ensures AggregateInto(acc, cs).Keys == acc.Keys + Tokens(cs)
    ensures forall k :: Lookup(AggregateInto(acc, cs), k) == Lookup(acc, k) + TokenTotal(cs, k)
    decreases |cs|
  {
    if |cs| > 0 {
      AggregateIntoTotals(Add(acc, cs[0]), cs[1..]);
    }
  }

  /** Apart from its own token, `Add` leaves the map as it was. */
  lemma AddSplit(acc: map<string, nat>, c: Charge)
    ensures Add(acc, c) - {c.token} == acc - {c.token}
    ensures Add(acc, c)[c.token] == Lookup(acc, c.token) + c.length
  {
    var r := Add(acc, c);
    forall k | k in r - {c.token}
      ensures (r - {c.token})[k] == (acc - {c.token})[k]
    {
      assert Lookup(r, k) == Lookup(acc, k);
    }
    assert Lookup(r, c.token) == Lookup(acc, c.token) + c.length;
  }

  /** Adding one charge raises the total of the map by its length. */
  lemma AddTotal(acc: map<string, nat>, c: Charge)
    ensures MapTotal(Add(acc, c)) == MapTotal(acc) + c.length
  {
    AddSplit(acc, c);
    MapTotalRemove(Add(acc, c), c.token);
    if c.token in acc {
      MapTotalRemove(acc, c.token);
    } else {
      assert acc - {c.token} == acc;
    }
  }

  lemma {:induction false} AggregateIntoTotal(acc: map<string, nat>, cs: seq<Charge>)
    ensures MapTotal(AggregateInto(acc, cs)) == MapTotal(acc) + Sum(cs)
    decreases |cs|
  {
    if |cs| > 0 {
      AddTotal(acc, cs[0]);
      AggregateIntoTotal(Add(acc, cs[0]), cs[1..]);
    }
  }

  /** No byte is lost or invented by the reduce: totals are conserved. */
  lemma AggregateConserves(cs: seq<Charge>)
    ensures MapTotal(Aggregate(cs)) == Sum(cs)
  {
    AggregateIntoTotal(map[], cs);
    assert MapTotal(map[]) == 0;
  }

  /** Recording a charge updates the eventual aggregate by exactly that charge. */
  lemma {:induction false} AggregateAppend(acc: map<string, nat>, cs: seq<Charge>, c: Charge)
    ensures AggregateInto(acc, cs + [c]) == Add(AggregateInto(acc, cs), c)
    decreases |cs|
  {
    if |cs| == 0 {
      assert cs + [c] == [c];
    } else {
      assert (cs + [c])[1..] == cs[1..] + [c];
      AggregateAppend(Add(acc, cs[0]), cs[1..], c);
    }
  }

  lemma AggregateSnoc(cs: seq<Charge>, c: Charge)
    ensures Aggregate(cs + [c]) == Add(Aggregate(cs), c)
  {
    assert Aggregate(cs) == AggregateInto(map[], cs);
    assert Aggregate(cs + [c]) == AggregateInto(map[], cs + [c]);
    AggregateAppend(map[], cs, c);
  }

  /** Recording a charge adds its length to its token's eventual total. */
  lemma ChargeImageAggregate(a: Aggregator, token: string, length: nat)
    ensures Aggregate(ChargeImage(a, token, length).pending)
         == Aggregate(a.pending)[token := Lookup(Aggregate(a.pending), token) + length]
  {
    var c := Charge(token, length);
    assert ChargeImage(a, token, length).pending == a.pending + [c];
    AggregateSnoc(a.pending, c);
  }

  /** Three charges, two tokens: one total per token, never merged across tokens. */
  lemma AggregateExample()
    ensures Aggregate([Charge("A", 100), Charge("A", 50), Charge("B", 30)]) == map["A" := 150, "B" := 30]
  {
    var cs := [Charge("A", 100), Charge("A", 50), Charge("B", 30)];
    assert cs[1..][1..][1..] == [];
    assert map["A" := 100]["A" := 150]["B" := 30] == map["A" := 150, "B" := 30];
  }

  // ---------------------------------------------------------------------------
  // The deferred check

  /**
   * What a flush hands on: `requests`, the number of charges drained, which
   * only the flush's log line reports, and the per-token totals.
   */
  datatype Batch = Batch(requests: nat, totals: map<string, nat>)

  datatype CheckResult = CheckResult(next: Aggregator, batch: Option<Batch>)

  /**
   * The body of the deferred check at clock reading `now`: nothing happens
   * unless strictly more than the interval has passed since the last flush;
   * a flush stamps `now`, empties the list and totals it per token.
   */
  function Check(a: Aggregator, now: int): (r: CheckResult)
    ensures now - a.lastChargedAt <= FlushInterval ==> r.next == a && r.batch == None
    ensures now - a.lastChargedAt > FlushInterval ==>
      && r.next == Aggregator([], now)
      && r.batch.Some?
      && r.batch.value.requests == |a.pending|
      && r.batch.value.totals.Keys == Tokens(a.pending)
      && (forall k :: k in r.batch.value.totals ==> r.batch.value.totals[k] == TokenTotal(a.pending, k))
  {
    if now - a.lastChargedAt > FlushInterval then
      CheckResult(Aggregator([], now), Some(Batch(|a.pending|, Aggregate(a.pending))))
    else
      CheckResult(a, None)
  }

  /** A flush neither loses nor invents bytes: the batch totals the drained list. */
  lemma FlushConserves(a: Aggregator, now: int)
    requires now - a.lastChargedAt > FlushInterval
    ensures MapTotal(Check(a, now).batch.value.totals) == Sum(a.pending)
  {
    AggregateConserves(a.pending);
  }

  /** One `UPDATE users SET balance = balance - amount ...` for one token. */
  datatype Update = Update(token: string, amount: nat)

  /** The sum of the amounts of a list of updates. */
  function UpdateSum(us: seq<Update>): nat {
    if |us| == 0 then 0 else UpdateSum(us[..|us| - 1]) + us[|us| - 1].amount
  }

  /** The tokens a list of updates touches. */
  function UpdatedTokens(us: seq<Update>): set<string> {
    if |us| == 0 then {} else UpdatedTokens(us[..|us| - 1]) + {us[|us| - 1].token}
  }

  /** Every update takes its amount from the totals. */
  predicate FromTotals(us: seq<Update>, totals: map<string, nat>) {
    forall i :: 0 <= i < |us| ==> us[i].token in totals && us[i].amount == totals[us[i].token]
  }

  /** No token is updated twice. */
  predicate DistinctTokens(us: seq<Update>) {
    forall i, j :: 0 <= i < j < |us| ==> us[i].token != us[j].token
  }

  /**
   * Part way through the statements: the keys already turned into updates and
   * the keys still remaining partition the totals.
   */
  predicate Progress(totals: map<string, nat>, remaining: map<string, nat>, updates: seq<Update>) {
    && remaining.Keys + UpdatedTokens(updates) == totals.Keys
    && remaining.Keys !! UpdatedTokens(updates)
    && (forall k :: k in remaining ==> remaining[k] == totals[k])
    && |updates| + |remaining| == |totals|
    && FromTotals(updates, totals)
    && DistinctTokens(updates)
  }

  /** Turning one remaining key into an update keeps the partition. */
  lemma TakeKey(totals: map<string, nat>, remaining: map<string, nat>, updates: seq<Update>, k: string)
    requires Progress(totals, remaining, updates) && k in remaining
    ensures Progress(totals, remaining - {k}, updates + [Update(k, remaining[k])])
  {
    RemoveSize(remaining, k);
    var next := updates + [Update(k, remaining[k])];
    assert next[..|updates|] == updates;
    forall i | 0 <= i < |updates|
      ensures updates[i].token in UpdatedTokens(updates)
    {
      TokenOfUpdate(updates, i);
    }
  }

  /**
   * The statements of one batch: one per entry of the totals, in an order
   * this model leaves open (`Object.entries` may reorder the keys).
   */
  method Statements(totals: map<string, nat>) returns (updates: seq<Update>)
    ensures |updates| == |totals|
    ensures UpdatedTokens(updates) == totals.Keys
    ensures FromTotals(updates, totals)
    ensures DistinctTokens(updates)
  {
    updates := [];
    var remaining := totals;
    while remaining != map[]
      invariant Progress(totals, remaining, updates)
      decreases |remaining|
    {
      var k :| k in remaining;
      TakeKey(totals, remaining, updates, k);
      RemoveSize(remaining, k);
      updates := updates + [Update(k, remaining[k])];
      remaining := remaining - {k};
    }
  }

  lemma {:induction false} UpdatedTokensIndex(us: seq<Update>, k: string)
    requires k in UpdatedTokens(us)
    ensures exists i :: 0 <= i < |us| && us[i].token == k
  {
    if us[|us| - 1].token != k {
      UpdatedTokensIndex(us[..|us| - 1], k);
      var i :| 0 <= i < |us| - 1 && us[..|us| - 1][i].token == k;
      assert us[i].token == k;
    }
  }

  /**
   * Whatever their order, statements with one update per key, each for that
   * key's total, charge exactly the total of the batch.
   */
  lemma {:induction false} StatementsConserve(totals: map<string, nat>, updates: seq<Update>)
    requires UpdatedTokens(updates) == totals.Keys
    requires FromTotals(updates, totals)
    requires DistinctTokens(updates)
    ensures UpdateSum(updates) == MapTotal(totals)
    decreases |updates|
  {
    if |updates| == 0 {
      assert totals == map[];
    } else {
      var n := |updates| - 1;
      var prefix, k := updates[..n], updates[n].token;
      var rest := totals - {k};
      assert k !in UpdatedTokens(prefix) by {
        if k in UpdatedTokens(prefix) {
          UpdatedTokensIndex(prefix, k);
        }
      }
      assert UpdatedTokens(prefix) == rest.Keys;
      assert FromTotals(prefix, rest) by {
        forall i | 0 <= i < n
          ensures prefix[i].token in rest && prefix[i].amount == rest[prefix[i].token]
        {
          assert updates[i].token != updates[n].token;
        }
      }
      StatementsConserve(rest, prefix);
      MapTotalRemove(totals, k);
    }
  }

  lemma {:induction false} TokenOfUpdate(us: seq<Update>, i: nat)
    requires i < |us|
    ensures us[i].token in UpdatedTokens(us)
  {
    if i < |us| - 1 {
      TokenOfUpdate(us[..|us| - 1], i);
    }
  }

  // ---------------------------------------------------------------------------
  // Timers

  /** What happens to the aggregator: a served picture, or a timer firing at `at`. */
  datatype Event = Served(token: string, length: nat) | Timer(at: int)

  /**
   * One event: a served picture appends its charge and leaves the stamp; a
   * timer leaves the state alone exactly when at most the interval has
   * passed since the last flush, and otherwise drains it and stamps its own
   * time. `lastChargedAt` never moves backwards.
   */
  function Step(a: Aggregator, e: Event): (r: Aggregator)
    ensures e.Served? ==> r.pending == a.pending + [Charge(e.token, e.length)]
    ensures e.Served? ==> r.lastChargedAt == a.lastChargedAt
    ensures e.Timer? ==> (r == a <==> e.at - a.lastChargedAt <= FlushInterval)
    ensures e.Timer? ==> r == a || (r.pending == [] && r.lastChargedAt == e.at)
    ensures r.lastChargedAt >= a.lastChargedAt
  {
    match e
    case Served(token, length) => ChargeImage(a, token, length)
    case Timer(at) => Check(a, at).next
  }

  /** The charges the events record, in order. */
  function Recorded(es: seq<Event>): seq<Charge> {
    if |es| == 0 then []
    else (if es[0].Served? then [Charge(es[0].token, es[0].length)] else []) + Recorded(es[1..])
  }

  predicate IsSuffix(xs: seq<Charge>, ys: seq<Charge>) {
    |xs| <= |ys| && xs == ys[|ys| - |xs|..]
  }

  lemma {:induction false} RunAppend(a: Aggregator, es: seq<Event>, e: Event)
    ensures Run(a, es + [e]) == Step(Run(a, es), e)
    decreases |es|
  {
    if |es| == 0 {
      assert es + [e] == [e];
    } else {
      assert (es + [e])[1..] == es[1..] + [e];
      RunAppend(Step(a, es[0]), es[1..], e);
    }
  }

  /** The charges recorded from position `k` on are a suffix of all of them. */
  lemma {:induction false} RecordedSuffix(es: seq<Event>, k: nat)
    requires k <= |es|
    ensures IsSuffix(Recorded(es[k..]), Recorded(es))
    decreases |es|
  {
    if k == 0 {
      assert es[0..] == es;
    } else {
      RecordedSuffix(es[1..], k - 1);
      assert es[1..][k - 1..] == es[k..];
      var rest := Recorded(es[1..]);
      var head := if es[0].Served? then [Charge(es[0].token, es[0].length)] else [];
      assert Recorded(es) == head + rest;
      assert (head + rest)[|head + rest| - |Recorded(es[k..])|..] == rest[|rest| - |Recorded(es[k..])|..];
    }
  }

  /** `es[i]` is the first timer of `es` that fires at `at`. */
  predicate FirstTimerAt(es: seq<Event>, i: int, at: int) {
    && 0 <= i < |es|
    && es[i] == Timer(at)
    && forall j :: 0 <= j < i ==> es[j] != Timer(at)
  }

  /** No timer of `es` from position `k` on fires more than the interval after `stamp`. */
  predicate QuietFrom(es: seq<Event>, k: nat, stamp: int) {
    forall j :: k <= j < |es| && es[j].Timer? ==> es[j].at - stamp <= FlushInterval
  }

  /** Moving a served picture or a quiet timer in front keeps `QuietFrom`. */
  lemma QuietShift(es: seq<Event>, k: nat, stamp: int)
    requires |es| > 0 && QuietFrom(es[1..], k, stamp)
    requires k == 0 ==> es[0].Served? || es[0].at - stamp <= FlushInterval
    ensures QuietFrom(es, k + 1, stamp)
    ensures k == 0 ==> QuietFrom(es, 0, stamp)
  {
    forall j | k + 1 <= j < |es| && es[j].Timer?
      ensures es[j].at - stamp <= FlushInterval
    {
      assert es[j] == es[1..][j - 1];
    }
  }

  /** `FirstTimerAt` in the rest carries over, one position on, when `es[0]` is not that timer. */
  lemma FirstTimerShift(es: seq<Event>, k: int, at: int)
    requires |es| > 0 && FirstTimerAt(es[1..], k, at) && es[0] != Timer(at)
    ensures FirstTimerAt(es, k + 1, at)
  {
    forall j | 0 <= j < k + 1
      ensures es[j] != Timer(at)
    {
      if j > 0 {
        assert es[j] == es[1..][j - 1];
      }
    }
  }

  /**
   * The exact pending list after `es`. With no flush, the old list followed
   * by every recorded charge, and no timer was due. After a flush, its stamp
   * lies more than the interval past the old one; it is the time of the
   * first timer firing then; exactly the charges recorded after that timer
   * are pending; and no later timer was due.
   */
  ghost predicate SinceLastFlush(a: Aggregator, es: seq<Event>, r: Aggregator) {
    && (r.lastChargedAt == a.lastChargedAt ==>
          r.pending == a.pending + Recorded(es) && QuietFrom(es, 0, a.lastChargedAt))
    && (r.lastChargedAt != a.lastChargedAt ==>
          && r.lastChargedAt > a.lastChargedAt + FlushInterval
          && exists i :: FirstTimerAt(es, i, r.lastChargedAt) && r.pending == Recorded(es[i + 1..])
                         && QuietFrom(es, i + 1, r.lastChargedAt))
  }

  /** A served picture in front of the events keeps `SinceLastFlush`. */
  lemma SinceAfterServed(a: Aggregator, es: seq<Event>, r: Aggregator)
    requires |es| > 0 && es[0].Served?
    requires SinceLastFlush(Step(a, es[0]), es[1..], r)
    ensures SinceLastFlush(a, es, r)
  {
    var c := Charge(es[0].token, es[0].length);
    var rest := Recorded(es[1..]);
    assert Recorded(es) == [c] + rest;
    if r.lastChargedAt == a.lastChargedAt {
      assert r.pending == (a.pending + [c]) + rest;
      QuietShift(es, 0, a.lastChargedAt);
    } else {
      var k :| FirstTimerAt(es[1..], k, r.lastChargedAt) && r.pending == Recorded(es[1..][k + 1..])
               && QuietFrom(es[1..], k + 1, r.lastChargedAt);
      assert es[1..][k + 1..] == es[k + 2..];
      FirstTimerShift(es, k, r.lastChargedAt);
      QuietShift(es, k + 1, r.lastChargedAt);
    }
  }

  /** A timer in front of the events keeps `SinceLastFlush`. */
  lemma SinceAfterTimer(a: Aggregator, es: seq<Event>, r: Aggregator)
    requires |es| > 0 && es[0].Timer?
    requires SinceLastFlush(Step(a, es[0]), es[1..], r)
    ensures SinceLastFlush(a, es, r)
  {
    var b := Step(a, es[0]);
    var rest := Recorded(es[1..]);
    assert Recorded(es) == rest;
    if r.lastChargedAt == b.lastChargedAt && b != a {
      assert b.pending == [] && b.lastChargedAt == es[0].at;
      assert r.pending == [] + rest;
      assert FirstTimerAt(es, 0, r.lastChargedAt);
      QuietShift(es, 0, r.lastChargedAt);
    } else if r.lastChargedAt == b.lastChargedAt {
      assert r.pending == a.pending + rest;
      QuietShift(es, 0, a.lastChargedAt);
    } else {
      assert es[0].at < r.lastChargedAt;
      var k :| FirstTimerAt(es[1..], k, r.lastChargedAt) && r.pending == Recorded(es[1..][k + 1..])
               && QuietFrom(es[1..], k + 1, r.lastChargedAt);
      assert es[1..][k + 1..] == es[k + 2..];
      FirstTimerShift(es, k, r.lastChargedAt);
      QuietShift(es, k + 1, r.lastChargedAt);
    }
  }

  /**
   * The state after a sequence of events: the last flush's stamp never moves
   * backwards; with no flush, the old list is followed by every recorded
   * charge and no timer was due; after a flush, exactly the charges recorded
   * after the first timer at its stamp are pending and no later timer was due.
   */
  function Run(a: Aggregator, es: seq<Event>): (r: Aggregator)
    ensures r.lastChargedAt >= a.lastChargedAt
    ensures r.lastChargedAt == a.lastChargedAt ==>
              && r.pending == a.pending + Recorded(es)
              && QuietFrom(es, 0, a.lastChargedAt)
    ensures r.lastChargedAt != a.lastChargedAt ==>
              && r.lastChargedAt > a.lastChargedAt + FlushInterval
              && exists i :: FirstTimerAt(es, i, r.lastChargedAt) && r.pending == Recorded(es[i + 1..])
                             && QuietFrom(es, i + 1, r.lastChargedAt)
    decreases |es|
  {
    if |es| == 0 then
      assert a.pending + [] == a.pending;
      a
    else
      var r := Run(Step(a, es[0]), es[1..]);
      if es[0].Served? then
        SinceAfterServed(a, es, r);
        r
      else
        SinceAfterTimer(a, es, r);
        r
  }

  /** `Run` over a non-empty prefix takes the first event, then the rest of the prefix. */
  lemma RunPrefix(a: Aggregator, es: seq<Event>, i: int)
    requires 0 < i <= |es|
    ensures Run(a, es[..i]) == Run(Step(a, es[0]), es[1..][..i - 1])
  {
    assert es[..i][0] == es[0];
    assert es[..i][1..] == es[1..][..i - 1];
  }

  /** `FirstTimerAt` in `es` at a later position carries back to the rest. */
  lemma FirstTimerUnshift(es: seq<Event>, i: int, at: int)
    requires FirstTimerAt(es, i, at) && i > 0
    ensures FirstTimerAt(es[1..], i - 1, at)
  {
    forall j | 0 <= j < i - 1
      ensures es[1..][j] != Timer(at)
    {
      assert es[1..][j] == es[j + 1];
    }
  }

  /**
   * The flush that set the final stamp was due: the first timer at that
   * stamp fired more than the interval after the stamp left by the events
   * before it.
   */
  lemma {:induction false} RunFlushWasDue(a: Aggregator, es: seq<Event>, i: int)
    requires Run(a, es).lastChargedAt != a.lastChargedAt
    requires FirstTimerAt(es, i, Run(a, es).lastChargedAt)
    ensures es[i].at - Run(a, es[..i]).lastChargedAt > FlushInterval
    decreases |es|
  {
    var r := Run(a, es);
    var b := Step(a, es[0]);
    assert r == Run(b, es[1..]);
    if i == 0 {
      assert es[..0] == [];
    } else {
      assert r.lastChargedAt != b.lastChargedAt by {
        if es[0].Served? {
          assert b.lastChargedAt == a.lastChargedAt;
        } else if b != a {
          assert b.lastChargedAt == es[0].at && es[0] == Timer(es[0].at);
        }
      }
      FirstTimerUnshift(es, i, r.lastChargedAt);
      RunFlushWasDue(b, es[1..], i - 1);
      RunPrefix(a, es, i);
    }
  }

  /**
   * A charge is drained no later than by the check its own timer runs, when
   * that timer fires strictly more than the interval after the charge was
   * recorded (and the clock had not gone back before the last flush): what
   * is still pending was recorded afterwards.
   */
  lemma ChargeDrainedByItsTimer(a: Aggregator, token: string, length: nat, recordedAt: int,
                                later: seq<Event>, now: int)
    requires a.lastChargedAt <= recordedAt
    requires now > recordedAt + FlushInterval
    ensures IsSuffix(Run(ChargeImage(a, token, length), later + [Timer(now)]).pending, Recorded(later))
  {
    var b := ChargeImage(a, token, length);
    RunAppend(b, later, Timer(now));
    var s := Run(b, later);
    var t := Step(s, Timer(now));
    if s.lastChargedAt == b.lastChargedAt {
      assert t.pending == [];
    } else if t != s {
      assert t.pending == [];
    } else {
      var i :| FirstTimerAt(later, i, s.lastChargedAt) && s.pending == Recorded(later[i + 1..])
               && QuietFrom(later, i + 1, s.lastChargedAt);
      RecordedSuffix(later, i + 1);
    }
  }

  /**
   * The boundary the strict comparison leaves open: a charge recorded in the
   * same millisecond as a flush, whose timer fires exactly one interval
   * later, is still pending after that timer, and no other timer is due.
   */
  lemma TimerAtExactIntervalKeepsCharge(t: int, token: string, length: nat)
    ensures Run(ChargeImage(Start(t), token, length), [Timer(t + FlushInterval)]).pending
         == [Charge(token, length)]
  {
    var b := ChargeImage(Start(t), token, length);
    assert Run(b, [Timer(t + FlushInterval)]) == Run(Check(b, t + FlushInterval).next, []);
  }
}

=== FILE: cache.dfy ===
/**
 * Cache paths as `cacheFile` derives them. A path is its sequence of
 * segments; route parameters never hold `/`, and this model assumes they are
 * not `.` or `..` either, so joining segments needs no normalisation.
 */
module CachePaths {
  import opened Wrappers

  type Path = seq<string>

  /** The route parameters of `/:model/:attribute/:id[/:geometry]/:filename`. */
  datatype Request = Request(
    model: string,
    attribute: string,
    id: string,
    geometry: Option<string>,
    filename: string)

  /** `req.path`, as segments. */
  function RequestPath(r: Request): (p: Path)
    ensures |p| == if r.geometry.Some? then 5 else 4
  {
    [r.model, r.attribute, r.id] + (if r.geometry.Some? then [r.geometry.value] else []) + [r.filename]
  }

  /**
   * `req.cache`: the file that answers this request, under the cache
   * directory: model, attribute, id, the geometry if any, then the filename.
   */
  function Cache(dir: Path, r: Request): (p: Path)
    ensures |p| == |dir| + (if r.geometry.Some? then 5 else 4) && p[..|dir|] == dir
    ensures p[|dir|] == r.model && p[|dir| + 1] == r.attribute && p[|dir| + 2] == r.id
    ensures r.geometry.Some? ==> p[|dir| + 3] == r.geometry.value
    ensures p[|p| - 1] == r.filename
  {
    dir + RequestPath(r)
  }

  /**
   * `req.originalCache`: the unresized blob of the request's resource, which
   * is where the same request without a geometry is cached.
   */
  function OriginalCache(dir: Path, r: Request): (p: Path)
    ensures |p| == |dir| + 4 && p[..|dir|] == dir
    ensures p == Cache(dir, r.(geometry := None))
  {
    dir + [r.model, r.attribute, r.id, r.filename]
  }

  /**
   * `req.resizedCache`: the request's own path, set only when it differs from
   * the original's, which is exactly when the route carries a geometry.
   */
  function ResizedCache(dir: Path, r: Request): (p: Option<Path>)
    ensures p.Some? <==> r.geometry.Some?
    ensures p.Some? ==> p.value == Cache(dir, r)
  {
    if OriginalCache(dir, r) != Cache(dir, r) then Some(Cache(dir, r)) else None
  }

  /** `req.tempCache`: a file named `<nonce>.jpg` directly in the cache directory. */
  function TempCache(dir: Path, nonce: string): (p: Path)
    ensures |p| == |dir| + 1 && p[..|dir|] == dir
    ensures |p[|dir|]| == |nonce| + 4 && p[|dir|][..|nonce|] == nonce && p[|dir|][|nonce|..] == ".jpg"
  {
    dir + [nonce + ".jpg"]
  }

  /** On the four-segment route the request's path is the original's. */
  lemma OriginalRouteIsOriginal(dir: Path, r: Request)
    requires r.geometry.None?
    ensures Cache(dir, r) == OriginalCache(dir, r)
  {
  }

  /**
   * Distinct requests have distinct cache paths: the layout is the index, and
   * no two resources share a file.
   */
  lemma CacheInjective(dir: Path, r1: Request, r2: Request)
    requires Cache(dir, r1) == Cache(dir, r2)
    ensures r1 == r2
  {
    var p1, p2 := RequestPath(r1), RequestPath(r2);
    assert p1 == Cache(dir, r1)[|dir|..] == Cache(dir, r2)[|dir|..] == p2;
    assert |p1| == |p2|;
    assert p1[0] == p2[0] && p1[1] == p2[1] && p1[2] == p2[2];
    if r1.geometry.Some? {
      assert p1[3] == p2[3] && p1[4] == p2[4];
    } else {
      assert p1[3] == p2[3];
    }
  }

  /**
   * All geometries of one resource share its original, which is the cache
   * path of the plain request, while each geometry has a path of its own.
   */
  lemma VariantsShareOriginal(dir: Path, r: Request, g1: string, g2: string)
    requires g1 != g2
    ensures OriginalCache(dir, r.(geometry := Some(g1))) == Cache(dir, r.(geometry := None))
    ensures OriginalCache(dir, r.(geometry := Some(g1))) == OriginalCache(dir, r.(geometry := Some(g2)))
    ensures Cache(dir, r.(geometry := Some(g1))) != Cache(dir, r.(geometry := Some(g2)))
  {
    var r1, r2 := r.(geometry := Some(g1)), r.(geometry := Some(g2));
    if Cache(dir, r1) == Cache(dir, r2) {
      CacheInjective(dir, r1, r2);
    }
  }

  /** The temporary file is never a canonical cache path. */
  lemma TempIsNotCanonical(dir: Path, nonce: string, r: Request)
    ensures TempCache(dir, nonce) != Cache(dir, r)
    ensures TempCache(dir, nonce) != OriginalCache(dir, r)
  {
  }
}

=== FILE: geometry.dfy ===
/**
 * The geometry token of a resize request (`300x200!`, `300x`, `x120`), as
 * `resizeFile` reads it: a trailing `!` selects crop mode, anything else fit
 * mode (`max()`), and the first two `x`-separated parts give the width and
 * height, where an empty, zero or absent part leaves that side unconstrained.
 */
module Geometry {
  import opened Wrappers
  import opened Strings

  /** What the resizer is asked for: crop to the box, or fit inside it. */
  datatype Geometry = Geometry(crop: bool, width: Option<nat>, height: Option<nat>)

  /** A constrained side is never zero: `Number(s) || null` turns 0 into null. */
  predicate Positive(g: Geometry) {
    (g.width.Some? ==> g.width.value > 0) && (g.height.Some? ==> g.height.value > 0)
  }

  /**
   * The tokens this model reads: digits and `x`, with at most one `!`, as the
   * very last character. This covers the route's `\d*x\d*!?` shape and also
   * tokens without any `x` or with several.
   */
  predicate WellFormedToken(token: string) {
    forall i :: 0 <= i < |token| ==>
      IsDigit(token[i]) || token[i] == 'x' || (token[i] == '!' && i == |token| - 1)
  }

  /** Every character is a digit or an `x`. */
  predicate DigitsAndCrosses(s: string) {
    forall i :: 0 <= i < |s| ==> IsDigit(s[i]) || s[i] == 'x'
  }

  /** `Number(s) || null` on a digit string. */
  function NumberOrNull(s: string): (r: Option<nat>)
    requires IsDigits(s)
    ensures r.None? <==> forall i :: 0 <= i < |s| ==> s[i] == '0'
    ensures r.Some? ==> r.value == DecimalValue(s) && r.value > 0
  {
    var v := DecimalValue(s);
    if v == 0 then None else Some(v)
  }

  /** The token with its trailing `!`, if any, removed (`geometry.slice(0, -1)`). */
  function Body(token: string): (body: string)
    requires WellFormedToken(token)
    ensures DigitsAndCrosses(body)
    ensures token == body || token == body + "!"
    ensures |body| == |token| || (|body| == |token| - 1 && token[|token| - 1] == '!')
  {
    if |token| > 0 && token[|token| - 1] == '!' then token[..|token| - 1] else token
  }

  /** The `x`-separated parts of a body are digit strings. */
  lemma PartsAreDigits(body: string)
    requires DigitsAndCrosses(body)
    ensures forall i :: 0 <= i < |Split(body, 'x')| ==> IsDigits(Split(body, 'x')[i])
  {
    var parts := Split(body, 'x');
    forall i, j | 0 <= i < |parts| && 0 <= j < |parts[i]|
      ensures IsDigit(parts[i][j])
    {
      assert parts[i][j] in parts[i];
    }
  }

  /** The geometry a token asks for. */
  function Parse(token: string): (g: Geometry)
    requires WellFormedToken(token)
    ensures g.crop <==> |token| > 0 && token[|token| - 1] == '!'
    ensures Positive(g)
  {
    var dims := Split(Body(token), 'x');
    PartsAreDigits(Body(token));
    Geometry(
      |token| > 0 && token[|token| - 1] == '!',
      NumberOrNull(dims[0]),
      if |dims| > 1 then NumberOrNull(dims[1]) else None)
  }

  /** The canonical token of a geometry: shortest numerals around one `x`. */
  function Format(g: Geometry): (token: string)
    ensures WellFormedToken(token)
    ensures 'x' in token
  {
    Side(g.width) + "x" + Side(g.height) + (if g.crop then "!" else "")
  }

  function Side(d: Option<nat>): (s: string)
    ensures IsDigits(s)
  {
    match d
    case None => ""
    case Some(n) => Decimal(n)
  }

  lemma SideRoundTrip(d: Option<nat>)
    requires d.Some? ==> d.value > 0
    ensures NumberOrNull(Side(d)) == d
  {
    if d.Some? {
      DecimalRoundTrip(d.value);
    }
  }

  /** Parsing the canonical token of a geometry gives that geometry back. */
  lemma ParseFormat(g: Geometry)
    requires Positive(g)
    ensures Parse(Format(g)) == g
  {
    var w, h := Side(g.width), Side(g.height);
    var body := w + "x" + h;
    assert Body(Format(g)) == body;
    assert 'x' !in w && 'x' !in h by {
      assert forall i :: 0 <= i < |w| ==> w[i] != 'x';
      assert forall i :: 0 <= i < |h| ==> h[i] != 'x';
    }
    SplitAtSeparator(w, 'x', h);
    SplitWithoutSeparator(h, 'x');
    SideRoundTrip(g.width);
    SideRoundTrip(g.height);
  }

  /** Parsing is a normalisation: the canonical form parses to the same geometry. */
  lemma FormatIsCanonical(token: string)
    requires WellFormedToken(token)
    ensures Parse(Format(Parse(token))) == Parse(token)
  {
    ParseFormat(Parse(token));
  }

  /**
   * A trailing `!` selects crop mode and is removed before the split: the
   * dimensions are those of the same token without it, in fit mode.
   */
  lemma BangSelectsCrop(token: string)
    requires WellFormedToken(token) && '!' !in token
    ensures WellFormedToken(token + "!")
    ensures !Parse(token).crop
    ensures Parse(token + "!") == Parse(token).(crop := true)
  {
    assert forall i :: 0 <= i < |token| ==> token[i] != '!';
    assert (token + "!")[..|token|] == token;
  }

  /**
   * The width is the first `x`-separated part and the height the second,
   * whatever follows them.
   */
  lemma FirstTwoParts(a: string, b: string, rest: string)
    requires IsDigits(a) && IsDigits(b) && DigitsAndCrosses(rest)
    requires |rest| == 0 || rest[0] == 'x'
    ensures WellFormedToken(a + "x" + b + rest)
    ensures Parse(a + "x" + b + rest).width == NumberOrNull(a)
    ensures Parse(a + "x" + b + rest).height == NumberOrNull(b)
  {
    var token := a + "x" + b + rest;
    assert DigitsAndCrosses(token);
    assert Body(token) == token;
    assert 'x' !in a && 'x' !in b by {
      assert forall i :: 0 <= i < |a| ==> a[i] != 'x';
      assert forall i :: 0 <= i < |b| ==> b[i] != 'x';
    }
    assert token == a + "x" + (b + rest);
    SplitAtSeparator(a, 'x', b + rest);
    if |rest| == 0 {
      assert b + rest == b;
      SplitWithoutSeparator(b, 'x');
    } else {
      assert b + rest == b + "x" + rest[1..];
      SplitAtSeparator(b, 'x', rest[1..]);
    }
  }

  /** A token without `x` constrains only the width. */
  lemma NoCrossMeansNoHeight(a: string)
    requires IsDigits(a)
    ensures WellFormedToken(a)
    ensures Parse(a) == Geometry(false, NumberOrNull(a), None)
  {
    assert 'x' !in a by {
      assert forall i :: 0 <= i < |a| ==> a[i] != 'x';
    }
    SplitWithoutSeparator(a, 'x');
  }

  /** The value of a three-digit numeral, read digit by digit. */
  lemma ThreeDigits(s: string)
    requires |s| == 3 && IsDigits(s)
    ensures DecimalValue(s) == 100 * DigitValue(s[0]) + 10 * DigitValue(s[1]) + DigitValue(s[2])
  {
    var s2, s1 := s[..2], s[..1];
    assert s2[..1] == s1 && s2[1] == s[1];
    assert s1[..0] == "" && s1[0] == s[0];
    assert DecimalValue(s1) == DigitValue(s[0]);
    assert DecimalValue(s2) == 10 * DigitValue(s[0]) + DigitValue(s[1]);
  }

  /** `300x`: width 300, height unconstrained, fit mode. */
  lemma ExampleWidthOnly()
    ensures Parse("300x") == Geometry(false, Some(300), None)
  {
    var a: string := "300";
    assert NumberOrNull(a) == Some(300) by {
      ThreeDigits(a);
    }
    assert a + "x" + "" + "" == "300x";
    FirstTwoParts(a, "", "");
  }

  /** `x300`: width unconstrained, height 300, fit mode. */
  lemma ExampleHeightOnly()
    ensures Parse("x300") == Geometry(false, None, Some(300))
  {
    var b: string := "300";
    assert NumberOrNull(b) == Some(300) by {
      ThreeDigits(b);
    }
    assert "" + "x" + b + "" == "x300";
    FirstTwoParts("", b, "");
  }

  /** `300x200`: fit inside 300 by 200. */
  lemma ExampleFitBox()
    ensures Parse("300x200") == Geometry(false, Some(300), Some(200))
  {
    var a: string, b: string := "300", "200";
    assert NumberOrNull(a) == Some(300) by {
      ThreeDigits(a);
    }
    assert NumberOrNull(b) == Some(200) by {
      ThreeDigits(b);
    }
    assert a + "x" + b + "" == "300x200";
    FirstTwoParts(a, b, "");
  }

  /** `300x200!`: exactly 300 by 200, crop mode. */
  lemma ExampleCrop()
    ensures Parse("300x200!") == Geometry(true, Some(300), Some(200))
  {
    ExampleFitBox();
    BangSelectsCrop("300x200");
    assert "300x200" + "!" == "300x200!";
  }
}

=== FILE: pipeline.dfy ===
/**
 * One request through the middleware chain: `cacheFile`, then `streamFile`,
 * then `resizeFile` on the geometry route, then `serveFile`. The cache
 * directory is a map from paths to file contents, the database is an abstract
 * blob store, and the image library is a function parameter.
 */
module Pipeline {
  import opened Wrappers
  import opened CachePaths
  import Geometry
  import Billing

  type Bytes = seq<bv8>

  /** The files under the cache directory (directories are not modelled). */
  type Files = map<Path, Bytes>

  /** The two blob queries of `oidSQL`. */
  datatype OidQuery = PictureImage | UserAvatar

  /** A key made of two parts joined by `_` splits at the key's only `_`. */
  lemma UnderscoreKey(model: string, attribute: string, m: string, a: string)
    requires '_' !in m && '_' !in a
    requires model + "_" + attribute == m + "_" + a
    ensures model == m && attribute == a
  {
    var key := m + "_" + a;
    assert key[|model|] == '_';
    assert |model| == |m|;
    assert model == key[..|m|] == m;
    assert attribute == key[|m| + 1..] == a;
  }

  /**
   * The query for a resource family, switched on `model + '_' + attribute`:
   * there is one exactly for (picture, image) and (user, avatar).
   */
  function OidSQL(model: string, attribute: string): (q: Option<OidQuery>)
    ensures q == Some(PictureImage) <==> model == "picture" && attribute == "image"
    ensures q == Some(UserAvatar) <==> model == "user" && attribute == "avatar"
    ensures q == None <==>
      !(model == "picture" && attribute == "image") && !(model == "user" && attribute == "avatar")
  {
    var key := model + "_" + attribute;
    assert "picture_image" == "picture" + "_" + "image";
    assert "user_avatar" == "user" + "_" + "avatar";
    if key == "picture_image" then
      UnderscoreKey(model, attribute, "picture", "image");
      Some(PictureImage)
    else if key == "user_avatar" then
      UnderscoreKey(model, attribute, "user", "avatar");
      Some(UserAvatar)
    else
      None
  }

  type Oid = nat

  /** A row of one of the two lookup queries. */
  datatype RowKey = RowKey(query: OidQuery, id: string, filename: string)

  /** The database: lookup rows naming large objects, and the objects' bytes. */
  datatype BlobStore = BlobStore(rows: map<RowKey, Oid>, objects: map<Oid, Bytes>)

  /** Why a request ends in the 500 handler. */
  datatype Failure =
    | NoQuery       // `oidSQL` has no query for the resource family
    | NoRow         // `t.one` finds no row
    | NoObject      // the row names a large object that cannot be opened
    | ResizeFailed  // the image library reports an error
    | ReadFailed    // the cache file cannot be read

  datatype Response =
    | Image(contentType: string, contentLength: nat, body: Bytes)
    | ServerError(cause: Failure)

  /** The image library: resized bytes, or an error. */
  type Resizer = (Bytes, Geometry.Geometry) -> Option<Bytes>

  /** The state a request can change: the cache files and the billing state. */
  datatype Server = Server(files: Files, billing: Billing.Aggregator)

  /** Which costly stages a request ran. */
  datatype Work = Work(fetched: bool, resized: bool)

  datatype Outcome = Outcome(server: Server, response: Response, work: Work)

  /** The blob of a resource: the `t.one` lookup, then the large object. */
  function Blob(store: BlobStore, r: Request): (b: Result<Bytes, Failure>)
    ensures b.Success? <==>
      && OidSQL(r.model, r.attribute).Some?
      && RowKey(OidSQL(r.model, r.attribute).value, r.id, r.filename) in store.rows
      && store.rows[RowKey(OidSQL(r.model, r.attribute).value, r.id, r.filename)] in store.objects
    ensures b.Success? ==>
      b.value == store.objects[store.rows[RowKey(OidSQL(r.model, r.attribute).value, r.id, r.filename)]]
    ensures b == Failure(NoQuery) <==> OidSQL(r.model, r.attribute).None?
  {
    match OidSQL(r.model, r.attribute)
    case None => Failure(NoQuery)
    case Some(query) =>
      var key := RowKey(query, r.id, r.filename);
      if key !in store.rows then Failure(NoRow)
      else if store.rows[key] !in store.objects then Failure(NoObject)
      else Success(store.objects[store.rows[key]])
  }

  /**
   * Write to a temporary file, then rename it over `target`: afterwards
   * `target` holds exactly `bytes`, the temporary file is gone and every
   * other file is as it was.
   */
  function Install(files: Files, temp: Path, target: Path, bytes: Bytes): (r: Files)
    requires temp != target
    ensures target in r && r[target] == bytes
    ensures temp !in r
    ensures forall p :: p != temp && p != target ==> (p in r <==> p in files)
    ensures forall p :: p in files && p != temp && p != target ==> r[p] == files[p]
  {
    var written := files[temp := bytes];
    (written - {temp})[target := written[temp]]
  }

  /** `streamFile`: copy the resource's blob into its original cache path. */
  function Fetch(dir: Path, store: BlobStore, r: Request, temp: Path, files: Files): (f: Result<Files, Failure>)
    requires temp != OriginalCache(dir, r)
    ensures f.Success? <==> Blob(store, r).Success?
    ensures f.Failure? ==> f.error == Blob(store, r).error
    ensures f.Success? ==> OriginalCache(dir, r) in f.value && f.value[OriginalCache(dir, r)] == Blob(store, r).value
  {
    match Blob(store, r)
    case Failure(e) => Failure(e)
    case Success(bytes) => Success(Install(files, temp, OriginalCache(dir, r), bytes))
  }

  /** `resizeFile`: resize the original into the request's own path. */
  function Resize(dir: Path, resize: Resizer, r: Request, temp: Path, files: Files): (f: Result<Files, Failure>)
    requires r.geometry.Some? && Geometry.WellFormedToken(r.geometry.value)
    requires temp != Cache(dir, r)
    ensures f.Success? <==>
      OriginalCache(dir, r) in files && resize(files[OriginalCache(dir, r)], Geometry.Parse(r.geometry.value)).Some?
    ensures f.Failure? ==> f.error == ResizeFailed
    ensures f.Success? ==>
      && Cache(dir, r) in f.value
      && f.value[Cache(dir, r)] == resize(files[OriginalCache(dir, r)], Geometry.Parse(r.geometry.value)).value
  {
    var original := OriginalCache(dir, r);
    if original !in files then Failure(ResizeFailed)
    else
      match resize(files[original], Geometry.Parse(r.geometry.value))
      case None => Failure(ResizeFailed)
      case Some(bytes) => Success(Install(files, temp, Cache(dir, r), bytes))
  }

  /**
   * `serveFile`: read the file and send it as a JPEG of its own length,
   * charging its length to the request's id when the model is `picture`.
   */
  function Serve(r: Request, path: Path, files: Files, billing: Billing.Aggregator): (o: (Response, Billing.Aggregator))
    ensures o.0.Image? <==> path in files
    ensures o.0.Image? ==> o.0 == Image("image/jpeg", |files[path]|, files[path])
    ensures o.1 == if o.0.Image? && r.model == "picture"
                   then Billing.ChargeImage(billing, r.id, |files[path]|)
                   else billing
  {
    if path !in files then (ServerError(ReadFailed), billing)
    else
      var data := files[path];
      var charged := if r.model == "picture" then Billing.ChargeImage(billing, r.id, |data|) else billing;
      (Image("image/jpeg", |data|, data), charged)
  }

  /** The geometry tokens this model reads (see `Geometry.WellFormedToken`). */
  predicate Routable(r: Request) {
    r.geometry.Some? ==> Geometry.WellFormedToken(r.geometry.value)
  }

  /**
   * One request. A file already at the request's path is served at once;
   * otherwise the blob is fetched into the original path, resized into the
   * request's path on the geometry route, and then served.
   */
  function Handle(dir: Path, store: BlobStore, resize: Resizer, nonce: string, s: Server, r: Request): (o: Outcome)
    requires Routable(r)
    // a cached file short-circuits the fetch and the resize
    ensures Cache(dir, r) in s.files ==>
      && o.work == Work(false, false)
      && o.server.files == s.files
      && o.response == Image("image/jpeg", |s.files[Cache(dir, r)]|, s.files[Cache(dir, r)])
    // any miss consults the blob store, and only the geometry route resizes
    ensures Cache(dir, r) !in s.files ==> o.work.fetched
    ensures o.work.resized ==> r.geometry.Some?
    // what is served is the cached file, with its own length
    ensures o.response.Image? ==>
      && Cache(dir, r) in o.server.files
      && o.response.body == o.server.files[Cache(dir, r)]
      && o.response.contentLength == |o.response.body|
      && o.response.contentType == "image/jpeg"
    // exactly the bytes served are charged, and only for pictures
    ensures o.server.billing == if o.response.Image? && r.model == "picture"
                                then Billing.ChargeImage(s.billing, r.id, |o.response.body|)
                                else s.billing
    // only the request's original and own paths can gain or change a file
    ensures forall p :: p in o.server.files && p != OriginalCache(dir, r) && p != Cache(dir, r) ==> p in s.files
    ensures forall p :: p in s.files && p != OriginalCache(dir, r) && p != Cache(dir, r) && p != TempCache(dir, nonce) ==>
      p in o.server.files && o.server.files[p] == s.files[p]
  {
    var cache, temp := Cache(dir, r), TempCache(dir, nonce);
    TempIsNotCanonical(dir, nonce, r);
    if cache in s.files then
      var (response, billing) := Serve(r, cache, s.files, s.billing);
      Outcome(s.(billing := billing), response, Work(false, false))
    else
      match Fetch(dir, store, r, temp, s.files)
      case Failure(e) => Outcome(s, ServerError(e), Work(true, false))
      case Success(fetched) =>
        if r.geometry.None? then
          var (response, billing) := Serve(r, cache, fetched, s.billing);
          Outcome(Server(fetched, billing), response, Work(true, false))
        else
          match Resize(dir, resize, r, temp, fetched)
          case Failure(e) => Outcome(s.(files := fetched), ServerError(e), Work(true, true))
          case Success(resized) =>
            var (response, billing) := Serve(r, cache, resized, s.billing);
            Outcome(Server(resized, billing), response, Work(true, true))
  }

  /**
   * Once a request has been answered, the same request again is a cache hit:
   * no fetch, no resize, the same bytes.
   */
  lemma SecondRequestHits(dir: Path, store: BlobStore, resize: Resizer, nonce1: string, nonce2: string,
                          s: Server, r: Request)
    requires Routable(r)
    requires Handle(dir, store, resize, nonce1, s, r).response.Image?
    ensures var first := Handle(dir, store, resize, nonce1, s, r);
            var second := Handle(dir, store, resize, nonce2, first.server, r);
            second.work == Work(false, false) && second.response == first.response
  {
  }

  /** On a miss of the plain route the response is the blob, byte for byte. */
  lemma OriginalRouteServesBlob(dir: Path, store: BlobStore, resize: Resizer, nonce: string, s: Server, r: Request)
    requires r.geometry.None?
    requires Cache(dir, r) !in s.files
    requires Blob(store, r).Success?
    ensures var o := Handle(dir, store, resize, nonce, s, r);
            && o.response == Image("image/jpeg", |Blob(store, r).value|, Blob(store, r).value)
            && o.server.files[OriginalCache(dir, r)] == Blob(store, r).value
  {
    OriginalRouteIsOriginal(dir, r);
  }

  /**
   * On a miss of the geometry route the blob becomes the original and the
   * response is the library's rendering of it at the parsed geometry.
   */
  lemma GeometryRouteServesRendering(dir: Path, store: BlobStore, resize: Resizer, nonce: string,
                                     s: Server, r: Request)
    requires r.geometry.Some? && Geometry.WellFormedToken(r.geometry.value)
    requires Cache(dir, r) !in s.files
    requires Blob(store, r).Success?
    requires resize(Blob(store, r).value, Geometry.Parse(r.geometry.value)).Some?
    ensures var o := Handle(dir, store, resize, nonce, s, r);
            var rendering := resize(Blob(store, r).value, Geometry.Parse(r.geometry.value)).value;
            && o.response == Image("image/jpeg", |rendering|, rendering)
            && o.server.files[OriginalCache(dir, r)] == Blob(store, r).value
            && o.work == Work(true, true)
  {
    var original := OriginalCache(dir, r);
    var cache := Cache(dir, r);
    assert original != cache by {
      assert |cache| == |dir| + 5;
    }
    TempIsNotCanonical(dir, nonce, r);
  }

  /**
   * A lookup that finds no row ends in an error (the 500 handler), creates
   * no file and charges nothing.
   */
  lemma MissingRowFails(dir: Path, store: BlobStore, resize: Resizer, nonce: string, s: Server, r: Request)
    requires Routable(r)
    requires Cache(dir, r) !in s.files
    requires OidSQL(r.model, r.attribute).Some?
    requires RowKey(OidSQL(r.model, r.attribute).value, r.id, r.filename) !in store.rows
    ensures var o := Handle(dir, store, resize, nonce, s, r);
            o.response == ServerError(NoRow) && o.server == s && !o.work.resized
  {
  }

  /**
   * A miss of the geometry route fetches again even when the original is
   * already cached, so it fails when the blob's row is gone.
   */
  lemma GeometryMissRefetchesOriginal(dir: Path, store: BlobStore, resize: Resizer, nonce: string,
                                      s: Server, r: Request)
    requires r.geometry.Some? && Geometry.WellFormedToken(r.geometry.value)
    requires OriginalCache(dir, r) in s.files && Cache(dir, r) !in s.files
    requires Blob(store, r).Failure?
    ensures var o := Handle(dir, store, resize, nonce, s, r);
            o.work.fetched && o.response == ServerError(Blob(store, r).error)
  {
  }
}

=== FILE: strings.dfy ===
/**
 * The string primitives the server relies on: `String.prototype.split` with a
 * one-character separator, its inverse `join`, and decimal numerals.
 */
module Strings {

  /** The ASCII decimal digits '0'..'9'. */
  predicate IsDigit(c: char) {
    '0' <= c <= '9'
  }

  /** Every character of `s` is a decimal digit (the empty string included). */
  predicate IsDigits(s: string) {
    forall i :: 0 <= i < |s| ==> IsDigit(s[i])
  }

  function DigitValue(c: char): (d: nat)
    requires IsDigit(c)
    ensures d < 10
  {
    (c as int) - ('0' as int)
  }

  function DigitChar(d: nat): (c: char)
    requires d < 10
    ensures IsDigit(c) && DigitValue(c) == d
  {
    (('0' as int) + d) as char
  }

  /**
   * The value of a digit string read as the exact natural number it denotes;
   * leading zeros are allowed and the empty string is 0.
   */
  function DecimalValue(s: string): (v: nat)
    requires IsDigits(s)
    ensures v == 0 <==> forall i :: 0 <= i < |s| ==> s[i] == '0'
  {
    if |s| == 0 then 0
    else
      var prefix := s[..|s| - 1];
      assert (forall i :: 0 <= i < |s| ==> s[i] == '0')
         <==> (forall i :: 0 <= i < |prefix| ==> prefix[i] == '0') && s[|s| - 1] == '0';
      DecimalValue(prefix) * 10 + DigitValue(s[|s| - 1])
  }

  /** The shortest decimal numeral of `n`: no leading zero, "0" for zero. */
  function Decimal(n: nat): (s: string)
    ensures IsDigits(s) && |s| >= 1
    ensures IsDigit(s[0]) && (n > 0 ==> s[0] != '0')
    decreases n
  {
    if n < 10 then [DigitChar(n)] else Decimal(n / 10) + [DigitChar(n % 10)]
  }

  /** Reading back a numeral gives the number it was printed from. */
  lemma {:induction false} DecimalRoundTrip(n: nat)
    ensures DecimalValue(Decimal(n)) == n
    decreases n
  {
    if n >= 10 {
      var s := Decimal(n);
      assert s[..|s| - 1] == Decimal(n / 10);
      DecimalRoundTrip(n / 10);
    }
  }

  /** Number of occurrences of `c` in `s`. */
  function Count(s: string, c: char): nat {
    if |s| == 0 then 0 else (if s[0] == c then 1 else 0) + Count(s[1..], c)
  }

  /**
   * `s.split(sep)`: the maximal runs of `s` between occurrences of `sep`,
   * one more part than there are separators, empty parts included.
   */
  function Split(s: string, sep: char): (parts: seq<string>)
    ensures |parts| == Count(s, sep) + 1
    ensures forall i :: 0 <= i < |parts| ==> sep !in parts[i]
    ensures forall i, c :: 0 <= i < |parts| && c in parts[i] ==> c in s
  {
    if |s| == 0 then [""]
    else
      var rest := Split(s[1..], sep);
      assert forall c :: c in s[1..] ==> c in s;
      if s[0] == sep then [""] + rest
      else [[s[0]] + rest[0]] + rest[1..]
  }

  /** `parts.join(sep)`. */
  function Join(parts: seq<string>, sep: char): string
    requires |parts| >= 1
  {
    if |parts| == 1 then parts[0] else parts[0] + [sep] + Join(parts[1..], sep)
  }

  /** Joining the parts of a split restores the original string. */
  lemma {:induction false} JoinSplit(s: string, sep: char)
    ensures Join(Split(s, sep), sep) == s
  {
    if |s| > 0 {
      var rest := Split(s[1..], sep);
      JoinSplit(s[1..], sep);
      if s[0] != sep && |rest| > 1 {
        var parts := Split(s, sep);
        assert parts[1..] == rest[1..];
        calc {
          Join(parts, sep);
          ([s[0]] + rest[0]) + [sep] + Join(rest[1..], sep);
          [s[0]] + (rest[0] + [sep] + Join(rest[1..], sep));
          [s[0]] + s[1..];
        }
      }
    }
  }

  /** A string without the separator splits into itself alone. */
  lemma {:induction false} SplitWithoutSeparator(a: string, sep: char)
    requires sep !in a
    ensures Split(a, sep) == [a]
  {
    if |a| > 0 {
      SplitWithoutSeparator(a[1..], sep);
      assert [a[0]] + a[1..] == a;
    }
  }

  /** The first separator ends the first part; the rest is split on its own. */
  lemma {:induction false} SplitAtSeparator(a: string, sep: char, b: string)
    requires sep !in a
    ensures Split(a + [sep] + b, sep) == [a] + Split(b, sep)
  {
    var s := a + [sep] + b;
    if |a| > 0 {
      assert s[1..] == a[1..] + [sep] + b;
      SplitAtSeparator(a[1..], sep, b);
      assert [a[0]] + a[1..] == a;
    } else {
      assert s[1..] == b;
    }
  }

  /** Splitting a join of separator-free parts gives the parts back. */
  lemma {:induction false} SplitJoin(parts: seq<string>, sep: char)
    requires |parts| >= 1
    requires forall i :: 0 <= i < |parts| ==> sep !in parts[i]
    ensures Split(Join(parts, sep), sep) == parts
  {
    if |parts| == 1 {
      SplitWithoutSeparator(parts[0], sep);
    } else {
      SplitJoin(parts[1..], sep);
      SplitAtSeparator(parts[0], sep, Join(parts[1..], sep));
    }
  }
}

=== FILE: wrappers.dfy ===
/**
 * Optional values and results: `None` stands for JavaScript's `null` /
 * `undefined`, `Failure` for an error passed to `next(err)`.
 */
module Wrappers {

  datatype Option<+T> = None | Some(value: T)

  datatype Result<+R, +E> = Success(value: R) | Failure(error: E)
}
